=== FILE: README.md ===
# meetnetvlaamsebanken `get_data`, modelled in Dafny

`get_data(token, stationparameter, tstart, tstop)` fetches one time series
from the Meetnet Vlaamse Banken web service. First it pings the service to
check the token. The service answers at most 365 days per request, so the
function then walks [tstart, tstop) in windows of 365 days, and the last
window is clipped at tstop. It posts one getData request per window and
classifies each reply:

- the identifier is unknown (null "Values");
- the identifier has no data in that window (null nested "Values");
- or the reply carries samples.

The samples of every window are appended to a time array and a value array.
At the end, `np.unique(t, return_index=True)` and `v[idx]` merge the arrays
to sorted distinct timestamps, keeping the value of each timestamp's first
occurrence. The function returns the two arrays and the last reply.

The model has six modules:

- `Wrappers`: the `Option` and `Result` types the others use.
- `Runtime`: the Python run-time behaviour the function relies on. This
  covers the exceptions that can escape and the three states of a decoded
  JSON member (absent, null, present). It also covers `is` on integers,
  where CPython shares one object only for ints in [-5, 256].
- `Windowing`: `np.arange` over the span, and the loop's choice of each
  window's end.
- `Replies`: the reading of one reply, and accumulation in window order.
- `Merge`: the unique-first merge.
- `GetData`: the whole call, with the network as parameters. `ping` is the
  decoded ping body. `fetch` answers the getData request for a window.
  `parse` is the datetime64 constructor applied to an offset-free timestamp.

Timestamps are integer seconds. `MaxSpan` is 365 days in seconds. Sample
values are of an opaque type `V`.

Two lines of the code behave differently from what they evidently mean. The
model keeps both readings: `Runtime.Reading` is `AsWritten` or `Intended`,
and the outcomes of both are proved (see "## Findings"). `ReadingsAgree`
shows the readings coincide on every other input.

Note these behaviours of the code, which the model follows:

- A ping body without a "Customer" member raises KeyError. It is not
  treated as an invalid token.
- A reply without a top-level "Values" member raises KeyError. So does a
  first entry without its own "Values" member. Neither is skipped.
- The UTC offset suffix is cut off (`[:-6]`) and never applied. Times are
  local clock readings, not normalised to an absolute time.
- An empty or reversed span issues no request and then raises
  UnboundLocalError at the return.

## Model

| member | source | states |
|---|---|---|
| Windowing.Starts | python/meetnetvlaamsebanken.py:89-90 | Start k is tstart + k·step. Every start lies before tstop. There is exactly the number of starts that reaches tstop (the last start is less than one step before it). An empty or reversed span has no starts. |
| Windowing.StartsCount | python/meetnetvlaamsebanken.py:89-90 | For a non-empty span, the number of windows is the ceiling of (tstop − tstart) / 365 days. |
| Windowing.WindowEnd | python/meetnetvlaamsebanken.py:95-99 | Any end the loop computes is the right one: the next start, or tstop for the last window. Under the intended `==` an end always exists. As written, the last window gets an end exactly when its index is at most 256; otherwise `t_start[i+1]` is read past the end. |
| Windowing.WindowsShape | python/meetnetvlaamsebanken.py:89-99 | An empty span gives no windows. Otherwise the first window starts at tstart and the last ends exactly at tstop. Window i starts i steps in. Each window ends where the next begins. No window is empty or longer than 365 days. |
| Windowing.WindowsCover | python/meetnetvlaamsebanken.py:89-99 | A time lies in some window if and only if it lies in [tstart, tstop). Such a time lies in exactly one window, the one numbered ⌊(x − tstart) / step⌋, so the windows do not overlap. |
| Windowing.WindowsAscend | python/meetnetvlaamsebanken.py:95-99 | The windows are in ascending time order. A later window starts no earlier than an earlier one ends. |
| Replies.StripOffset | python/meetnetvlaamsebanken.py:136 | Drops exactly the last six characters, leaving a prefix of the text. Text shorter than six characters gives the empty text, as Python slicing does. |
| Replies.OffsetIgnored | python/meetnetvlaamsebanken.py:136 | Two timestamps that differ only in their offset give the same time, so the offset is not applied. |
| Replies.DecodeAppend | python/meetnetvlaamsebanken.py:128-136 | Decoding two runs of raw samples gives the concatenation of their decodings, so samples keep their order. |
| Replies.DecodeIgnoresOffsets | python/meetnetvlaamsebanken.py:128-136 | Raw samples that differ only in the six-character offset of their timestamps decode to the same samples. |
| Replies.Classify | python/meetnetvlaamsebanken.py:112-136 | A reply fails exactly when "Values" is absent, is null as written, is an empty list, or has a first entry without "Values". An absent "Values" raises KeyError and, as written, a null one raises TypeError (line 112). An empty list raises IndexError, and a first entry without "Values" raises KeyError (line 120). It is an unknown identifier exactly when "Values" is null under the intended reading. It is no data exactly when the first entry's "Values" is null. It carries samples exactly when the first entry's "Values" is a list, and the samples are that list decoded. |
| Replies.ReadingsDifferOnlyOnNull | python/meetnetvlaamsebanken.py:112-125 | Both readings classify every reply alike, except one with a null "Values". As written, that reply raises TypeError from `len`. Intended, it is an unknown identifier. |
| Replies.OnlyFirstEntryRead | python/meetnetvlaamsebanken.py:120-136 | Only the first per-identifier entry matters: two replies that agree on it classify alike. |
| Replies.CollectedAppend | python/meetnetvlaamsebanken.py:138-139 | Accumulating two runs of windows gives the concatenation of their accumulations, in window order. |
| Replies.EmptyReplySkipped | python/meetnetvlaamsebanken.py:114-125 | A window whose reply carries no samples (unknown identifier or no data) adds nothing. Removing it leaves the accumulation of the others unchanged. |
| Replies.CollectedMembership | python/meetnetvlaamsebanken.py:127-139 | A sample is accumulated if and only if some window's reply carries it. |
| Replies.CollectedOfEmpty | python/meetnetvlaamsebanken.py:114-125 | If no window carries samples, nothing is accumulated. |
| Merge.UniqueIndex | python/meetnetvlaamsebanken.py:142 | `np.unique(t, return_index=True)`: the keys are strictly increasing and are exactly the distinct timestamps of t. There is one index per key. Each index points at that key's first occurrence in t. |
| Merge.FirstIndexValue | python/meetnetvlaamsebanken.py:142-143 | The value at a timestamp's first index equals the first-occurrence value found by scanning from the front. |
| Merge.MergeSeries | python/meetnetvlaamsebanken.py:142-143 | The merged times and values have equal length. The times are strictly increasing and have the same set as the accumulated times, one per distinct timestamp. Each time is paired with the value of its first occurrence. |
| Merge.SortedUnique | python/meetnetvlaamsebanken.py:142 | A sorted duplicate-free sequence is determined by its set of elements, so the merged times are the only possible ones. |
| Merge.MergeOfIncreasing | python/meetnetvlaamsebanken.py:142-143 | Merging a series that is already strictly increasing leaves it unchanged. |
| Merge.MergeIdempotent | python/meetnetvlaamsebanken.py:142-143 | Merging a merged series changes nothing. |
| Merge.FirstValueAppend | python/meetnetvlaamsebanken.py:138-143 | Samples appended later do not change the first-occurrence value of a timestamp that is already present. |
| Merge.MergeIgnoresLaterDuplicates | python/meetnetvlaamsebanken.py:138-143 | First occurrence wins. Appending samples whose timestamps were all seen before leaves the merge unchanged, whatever their values. |
| GetData.GetData | python/meetnetvlaamsebanken.py:77-145 | A null customer returns at once as an invalid token, before any getData request (lines 77-81). A missing "Customer" member raises KeyError. A valid token with an empty span issues no getData request and raises UnboundLocalError at the return (lines 89-95, 145). The call reports an invalid token exactly when the customer is null. |
| GetData.LoopSucceeds | python/meetnetvlaamsebanken.py:95-139 | If every window from i on classifies (and, as written, there are at most 257 windows), the loop requests all of them in order and raises nothing. It appends every reply's samples in window order and keeps the last reply. |
| GetData.LoopStopsAtFailure | python/meetnetvlaamsebanken.py:95-139 | If window k is the first to fail classification (as written, unless k is the last of more than 257 windows), the loop requests windows i to k and raises that failure. |
| GetData.LoopLosesLastWindow | python/meetnetvlaamsebanken.py:95-99 | As written, with more than 257 windows the loop requests all but the last window and then raises IndexError. |
| GetData.LoopFollowsWindows | python/meetnetvlaamsebanken.py:95-110 | For any replies, the loop requests consecutive windows with the right bounds, in order. When it raises nothing, it has requested every remaining window and kept the reply to the last one. |
| GetData.LoopFollowsPartition | python/meetnetvlaamsebanken.py:95-110 | Over the whole partition, for any replies, the walk requests a prefix of the windows. When it raises nothing it has requested all of them and kept the reply to the last one, or no reply if there were none. |
| GetData.RequestsFollowWindows | python/meetnetvlaamsebanken.py:89-110 | For any token and replies, the requests of a call are a prefix of the window partition, in order. A call that returns data has requested every window and returns the reply to the last one. |
| GetData.LoopReadingsAgree | python/meetnetvlaamsebanken.py:95-125 | With at most 257 windows, the two readings walk alike from window i on when their reply readers agree on every reply from there. |
| GetData.ReadingsAgree | python/meetnetvlaamsebanken.py:95-125 | With at most 257 windows and no null "Values" in any reply, the call behaves the same under both readings. |
| GetData.GetDataSucceeds | python/meetnetvlaamsebanken.py:89-145 | With a valid token, a non-empty span and every reply classifying (as written, at most 257 windows), the call requests every window once, in order. It returns the merge of all samples in window order, with the last window's reply. |
| GetData.NoDataWindowSkipped | python/meetnetvlaamsebanken.py:120-125 | With a valid token and a non-empty span (as written, at most 257 windows), under either reading, when every reply classifies, a window whose first entry has null "Values" is skipped. The call returns the merge of the other windows' samples, as if that window were absent. |
| GetData.GetDataStopsAtFirstFailure | python/meetnetvlaamsebanken.py:95-120 | With a valid token, if window k is the first whose reply fails classification (as written, unless k is the last of more than 257 windows), the call requests windows 0 to k and raises that failure. |
| GetData.LastWindowLostAsWritten | python/meetnetvlaamsebanken.py:95-99 | As written, a span longer than 257 × 365 days has more than 257 windows. Once the others are read, the call raises IndexError instead of requesting the last window. |
| GetData.UnknownIdentifierRaisesAsWritten | python/meetnetvlaamsebanken.py:112 | As written, a null "Values" in the first reply makes the call raise TypeError after one request. |
| GetData.UnknownIdentifierSkipped | python/meetnetvlaamsebanken.py:114-118 | Intended, an identifier unknown in every window is skipped window by window. Every window is requested and the result is empty, with no exception. |

## Left out

- `login`, `ping` and `catalog`, and the HTTP requests of `get_data` (lines 37-70 and 108-110): these are network I/O. The decoded ping body is the parameter `ping`. The decoded getData reply for a window is `fetch(window)`.
- JSON decoding of response bodies: the model starts from decoded bodies. A body that is not JSON, and a member of an unexpected type, are not modelled.
- The `print` diagnostics (lines 79-80, 100-103, 112, 116-117, 123-124): advisory output only. The exception that `len` raises at line 112 is modelled. Its printed value is not.
- Float conversion of sample values (line 133): values are opaque. A value that does not convert, and so raises ValueError, is not modelled.
- A sample that lacks its "Value" or "Timestamp" member (a KeyError at lines 133 and 136) is not modelled: every raw sample carries both.
- The datetime64 parsing of tstart, tstop and the sample timestamps (lines 89-90 and 136): times are integer seconds, and the timestamp parser is the parameter `parse`. The datetime64 unit that numpy infers from the text, and truncation to whole seconds, are not modelled.
- The datetime64 text formatting of the request bounds (lines 102-106): a request is the window itself.
- A transport failure during a request: it would propagate out of `requests.post`, which is not part of this model.
- Replies.Decode: the time of a sample is whatever `parse` gives. A malformed timestamp that numpy rejects is not modelled as an error.

## Findings

| source | as written | input that shows it | evidently intended | confidence | as-written member | corrected member |
|---|---|---|---|---|---|---|
| python/meetnetvlaamsebanken.py:112 | `print(len(data['Values']))` runs before the null check at line 114, and `len(None)` raises TypeError | a valid token and a first reply whose "Values" is null, meaning an identifier the service does not know | the null check at lines 114-118 skips the window with a warning, and the call continues | high; not executed | GetData.UnknownIdentifierRaisesAsWritten | GetData.UnknownIdentifierSkipped |
| python/meetnetvlaamsebanken.py:96 | `i is len(t_start)-1` tests object identity. CPython shares int objects only up to 256, so for index 257 or above the test is false even when the values are equal. The else branch then reads `t_start[i+1]` past the end and raises IndexError. | a valid token, a span longer than 257 × 365 days (258 or more windows), and replies that all classify | value equality `==`, so the last window ends at tstop and is requested | high; not executed | GetData.LastWindowLostAsWritten | GetData.GetDataSucceeds |

The corrected behaviour is `Reading.Intended`. Under it the end of every
window exists (`Windowing.WindowEnd`) and a null "Values" classifies as an
unknown identifier (`Replies.Classify`). `GetData.GetDataSucceeds` then
holds for any number of windows. `GetData.ReadingsAgree` shows these two
lines are the only places where the readings differ.

=== FILE: getdata.dfy ===
/** `get_data(token, stationparameter, tstart, tstop)`: check the token with a
    ping, walk the span in request windows, accumulate the samples of every
    reply, and merge them by timestamp. The ping reply, the getData replies
    and the datetime64 parser are parameters: `ping` is the decoded ping
    body, `fetch` answers the request for a window (the identifier and token
    are fixed for the call), `parse` reads an offset-free timestamp. */
module GetData {
  import opened Wrappers
  import opened Runtime
  import opened Windowing
  import opened Replies
  import opened Merge

  /** The decoded ping body; only its "Customer" member is read. */
  datatype PingStatus = PingStatus(customer: Field<string>)

  /** How a call ends: it returns None for an invalid token, raises, or
      returns the merged times, their values and the last raw reply. */
  datatype Outcome<V> =
    | InvalidToken
    | Raised(error: Error)
    | Fetched(times: seq<int>, values: seq<V>, last: Response<V>)

  /** The getData requests a call issues, in order, and how it ends. */
  datatype Run<V> = Run(requests: seq<Window>, outcome: Outcome<V>)

  /** The time array `t` of accumulated samples. */
  function Times<V>(s: seq<Sample<V>>): (t: seq<int>)
    ensures |t| == |s|
    ensures forall n :: 0 <= n < |s| ==> t[n] == s[n].time
  {
    seq(|s|, n requires 0 <= n < |s| => s[n].time)
  }

  /** The value array `v` of accumulated samples. */
  function Values<V>(s: seq<Sample<V>>): (v: seq<V>)
    ensures |v| == |s|
    ensures forall n :: 0 <= n < |s| ==> v[n] == s[n].value
  {
    seq(|s|, n requires 0 <= n < |s| => s[n].value)
  }

  /** Lines 142-145, after the loop: merge the accumulated samples and return
      them with the last reply, or fail because no reply was ever read. */
  function Finish<V>(samples: seq<Sample<V>>, last: Option<Response<V>>): Outcome<V>
  {
    match last
    case None => Raised(DataUnbound)
    case Some(data) =>
      var m := MergeSeries(Times(samples), Values(samples));
      Fetched(m.times, m.values, data)
  }

  /** Where the window loop stands: the requests issued, the exception that
      stopped it if any, the samples accumulated and the last reply read. */
  datatype Walk<V> = Walk(requests: seq<Window>, error: Option<Error>, samples: seq<Sample<V>>,
                          last: Option<Response<V>>)

  /** Lines 95-139, from window `i` on: compute the window's end, request it,
      classify the reply and append its samples. */
  function Loop<V>(reading: Reading, starts: seq<int>, stop: int, fetch: Window -> Response<V>,
                   read: Response<V> -> Result<Reply<V>, Error>, i: nat, samples: seq<Sample<V>>,
                   last: Option<Response<V>>): Walk<V>
    requires i <= |starts|
    decreases |starts| - i
  {
    if i == |starts| then Walk([], None, samples, last)
    else
      match WindowEnd(reading, starts, stop, i)
      case None => Walk([], Some(NoNextStart), samples, last)
      case Some(end) =>
        var w := Window(starts[i], end);
        var data := fetch(w);
        match read(data)
        case Failure(e) => Walk([w], Some(e), samples, Some(data))
        case Success(reply) =>
          var rest := Loop(reading, starts, stop, fetch, read, i + 1, samples + Contribution(reply), Some(data));
          Walk([w] + rest.requests, rest.error, rest.samples, rest.last)
  }

  /** The per-window reply reader of lines 112-136, as the loop applies it. */
  function Reader<V>(reading: Reading, parse: string -> int): (read: Response<V> -> Result<Reply<V>, Error>)
  {
    (data: Response<V>) => Classify(reading, data, parse)
  }

  /** The whole call. A null customer means an invalid token: the call returns
      at once, before any getData request. An empty span issues no request and
      then fails at the return, where `data` was never assigned. */
  function GetData<V>(reading: Reading, ping: PingStatus, start: int, stop: int,
                      fetch: Window -> Response<V>, parse: string -> int): (r: Run<V>)
    ensures ping.customer.Null? ==> r == Run([], InvalidToken)
    ensures ping.customer.Absent? ==> r == Run([], Raised(KeyMissing("Customer")))
    ensures ping.customer.Present? && start >= stop ==> r == Run([], Raised(DataUnbound))
    ensures r.outcome.InvalidToken? <==> ping.customer.Null?
  {
    match ping.customer
    case Absent => Run([], Raised(KeyMissing("Customer")))
    case Null => Run([], InvalidToken)
    case Present(_) =>
      var walk := Loop(reading, Starts(start, stop, MaxSpan), stop, fetch, Reader(reading, parse), 0, [], None);
      match walk.error
      case Some(e) => Run(walk.requests, Raised(e))
      case None => Run(walk.requests, Finish(walk.samples, walk.last))
  }

  /** When every window from `i` on classifies successfully (and, as written,
      there are few enough windows for the last-index test to hold), the loop
      requests all of them, raises nothing, appends everything they carry to
      the samples already held, and keeps the last window's reply. */
  lemma {:induction false} LoopSucceeds<V>(reading: Reading, starts: seq<int>, stop: int,
      fetch: Window -> Response<V>, read: Response<V> -> Result<Reply<V>, Error>, i: nat,
      samples: seq<Sample<V>>, last: Option<Response<V>>, replies: seq<Reply<V>>)
    requires i <= |starts|
    requires reading == AsWritten ==> |starts| <= SmallIntMax + 1
    requires |replies| == |starts|
    requires forall k :: i <= k < |starts| ==> read(fetch(WindowAt(starts, stop, k))) == Success(replies[k])
    ensures Loop(reading, starts, stop, fetch, read, i, samples, last) ==
      Walk(Span(starts, stop, i, |starts|), None, samples + Collected(replies[i..]),
           if i < |starts| then Some(fetch(WindowAt(starts, stop, |starts| - 1))) else last)
    decreases |starts| - i
  {
    if i == |starts| {
      assert replies[i..] == [];
      assert samples + [] == samples;
    } else {
      var w := WindowAt(starts, stop, i);
      var acc := samples + Contribution(replies[i]);
      LoopSucceeds(reading, starts, stop, fetch, read, i + 1, acc, Some(fetch(w)), replies);
      CollectedFrom(replies, i);
      assert acc + Collected(replies[i + 1..]) == samples + Collected(replies[i..]);
    }
  }

  /** When window `k` is the first from `i` on whose reply fails to classify
      (as written, unless it is the last of more than 257 windows), the loop
      requests windows `i` to `k` and raises that failure. */
  lemma {:induction false} LoopStopsAtFailure<V>(reading: Reading, starts: seq<int>, stop: int,
      fetch: Window -> Response<V>, read: Response<V> -> Result<Reply<V>, Error>, i: nat,
      samples: seq<Sample<V>>, last: Option<Response<V>>, k: int)
    requires i <= k < |starts|
    requires reading == AsWritten && k == |starts| - 1 ==> k <= SmallIntMax
    requires forall j :: i <= j < k ==> read(fetch(WindowAt(starts, stop, j))).Success?
    requires read(fetch(WindowAt(starts, stop, k))).Failure?
    ensures Loop(reading, starts, stop, fetch, read, i, samples, last).requests == Span(starts, stop, i, k + 1)
    ensures Loop(reading, starts, stop, fetch, read, i, samples, last).error ==
      Some(read(fetch(WindowAt(starts, stop, k))).error)
    decreases |starts| - i
  {
    var w := WindowAt(starts, stop, i);
    if i < k {
      var reply := read(fetch(w)).value;
      LoopStopsAtFailure(reading, starts, stop, fetch, read, i + 1, samples + Contribution(reply), Some(fetch(w)), k);
    }
  }

  /** As written, with more windows than CPython shares int objects for, the
      last index fails the `is` test, so the loop reads one start past the end
      and raises IndexError instead of requesting the last window. */
  lemma {:induction false} LoopLosesLastWindow<V>(starts: seq<int>, stop: int,
      fetch: Window -> Response<V>, read: Response<V> -> Result<Reply<V>, Error>, i: nat,
      samples: seq<Sample<V>>, last: Option<Response<V>>)
    requires i < |starts|
    requires |starts| > SmallIntMax + 1
    requires forall j :: i <= j < |starts| - 1 ==> read(fetch(WindowAt(starts, stop, j))).Success?
    ensures Loop(AsWritten, starts, stop, fetch, read, i, samples, last).requests == Span(starts, stop, i, |starts| - 1)
    ensures Loop(AsWritten, starts, stop, fetch, read, i, samples, last).error == Some(NoNextStart)
    decreases |starts| - i
  {
    if i < |starts| - 1 {
      var w := WindowAt(starts, stop, i);
      var reply := read(fetch(w)).value;
      LoopLosesLastWindow(starts, stop, fetch, read, i + 1, samples + Contribution(reply), Some(fetch(w)));
    }
  }

  /** Whatever the replies, the loop requests windows `i`, `i + 1`, ... in
      order, each with the right bounds, and stops early only by raising;
      when it raises nothing it has requested every remaining window and
      keeps the reply to the last one. */
  lemma {:induction false} LoopFollowsWindows<V>(reading: Reading, starts: seq<int>, stop: int,
      fetch: Window -> Response<V>, read: Response<V> -> Result<Reply<V>, Error>, i: nat,
      samples: seq<Sample<V>>, last: Option<Response<V>>)
    requires i <= |starts|
    ensures var walk := Loop(reading, starts, stop, fetch, read, i, samples, last);
      i + |walk.requests| <= |starts| &&
      walk.requests == Span(starts, stop, i, i + |walk.requests|)
    ensures var walk := Loop(reading, starts, stop, fetch, read, i, samples, last);
      walk.error.None? ==>
        walk.requests == Span(starts, stop, i, |starts|) &&
        walk.last == if i < |starts| then Some(fetch(WindowAt(starts, stop, |starts| - 1))) else last
    decreases |starts| - i
  {
    if i < |starts| && WindowEnd(reading, starts, stop, i).Some? {
      var w := WindowAt(starts, stop, i);
      var data := fetch(w);
      if read(data).Success? {
        var acc := samples + Contribution(read(data).value);
        LoopFollowsWindows(reading, starts, stop, fetch, read, i + 1, acc, Some(data));
        var rest := Loop(reading, starts, stop, fetch, read, i + 1, acc, Some(data));
        assert [w] + Span(starts, stop, i + 1, i + 1 + |rest.requests|) == Span(starts, stop, i, i + 1 + |rest.requests|);
      }
    }
  }

  /** Whatever the token and the replies, a call requests a prefix of the
      window partition, in order; a call that returns data has requested
      every window and returns the reply to the last one. */
  lemma RequestsFollowWindows<V>(reading: Reading, ping: PingStatus, start: int, stop: int,
      fetch: Window -> Response<V>, parse: string -> int)
    ensures var r := GetData(reading, ping, start, stop, fetch, parse);
      var w := Windows(start, stop, MaxSpan);
      |r.requests| <= |w| && r.requests == w[..|r.requests|]
    ensures var r := GetData(reading, ping, start, stop, fetch, parse);
      var w := Windows(start, stop, MaxSpan);
      r.outcome.Fetched? ==> r.requests == w && |w| > 0 && r.outcome.last == fetch(w[|w| - 1])
  {
    if ping.customer.Present? {
      LoopFollowsPartition(reading, Starts(start, stop, MaxSpan), stop, fetch, Reader(reading, parse));
      var walk := Loop(reading, Starts(start, stop, MaxSpan), stop, fetch, Reader(reading, parse), 0, [], None);
      assert GetData(reading, ping, start, stop, fetch, parse).requests == walk.requests;
    }
  }

  /** The whole walk over the windows of the given starts, for any replies:
      it requests a prefix of the partition, and all of it when it raises
      nothing, keeping then the reply to the last window. */
  lemma LoopFollowsPartition<V>(reading: Reading, starts: seq<int>, stop: int,
      fetch: Window -> Response<V>, read: Response<V> -> Result<Reply<V>, Error>)
    ensures var walk := Loop(reading, starts, stop, fetch, read, 0, [], None);
      var w := Partition(starts, stop);
      |walk.requests| <= |w| && walk.requests == w[..|walk.requests|] &&
      (walk.error.None? ==> walk.requests == w && walk.last == if |w| > 0 then Some(fetch(w[|w| - 1])) else None)
  {
    var w := Partition(starts, stop);
    LoopFollowsWindows(reading, starts, stop, fetch, read, 0, [], None);
    var walk := Loop(reading, starts, stop, fetch, read, 0, [], None);
    PartitionPrefix(starts, stop, |walk.requests|);
    PartitionPrefix(starts, stop, |starts|);
    assert w[..|starts|] == w;
  }

  /** The two readings walk alike from window `i` on when there are at most
      257 windows and the two reply readers agree on every reply there. */
  lemma {:induction false} LoopReadingsAgree<V>(starts: seq<int>, stop: int, fetch: Window -> Response<V>,
      written: Response<V> -> Result<Reply<V>, Error>, intended: Response<V> -> Result<Reply<V>, Error>,
      i: nat, samples: seq<Sample<V>>, last: Option<Response<V>>)
    requires i <= |starts| <= SmallIntMax + 1
    requires forall k :: i <= k < |starts| ==>
      written(fetch(WindowAt(starts, stop, k))) == intended(fetch(WindowAt(starts, stop, k)))
    ensures Loop(AsWritten, starts, stop, fetch, written, i, samples, last) ==
      Loop(Intended, starts, stop, fetch, intended, i, samples, last)
    decreases |starts| - i
  {
    if i < |starts| {
      var data := fetch(WindowAt(starts, stop, i));
      var result := intended(data);
      if result.Success? {
        LoopReadingsAgree(starts, stop, fetch, written, intended, i + 1, samples + Contribution(result.value), Some(data));
      }
    }
  }

  /** The two readings of the source differ only where its findings say: on
      a reply with a null "Values", and on a span of more than 257 windows.
      Elsewhere the call behaves alike under both. */
  lemma ReadingsAgree<V>(ping: PingStatus, start: int, stop: int, fetch: Window -> Response<V>,
      parse: string -> int)
    requires |Windows(start, stop, MaxSpan)| <= SmallIntMax + 1
    requires forall k :: 0 <= k < |Windows(start, stop, MaxSpan)| ==>
      !fetch(Windows(start, stop, MaxSpan)[k]).values.Null?
    ensures GetData(AsWritten, ping, start, stop, fetch, parse) == GetData(Intended, ping, start, stop, fetch, parse)
  {
    var starts := Starts(start, stop, MaxSpan);
    var w := Windows(start, stop, MaxSpan);
    var written, intended := Reader(AsWritten, parse), Reader(Intended, parse);
    forall k | 0 <= k < |starts|
      ensures written(fetch(WindowAt(starts, stop, k))) == intended(fetch(WindowAt(starts, stop, k)))
    {
      assert w[k] == WindowAt(starts, stop, k);
      ReadingsDifferOnlyOnNull(fetch(w[k]), parse);
    }
    LoopReadingsAgree(starts, stop, fetch, written, intended, 0, [], None);
  }

  /** When the token is valid, the span is not empty and every window's reply
      classifies (and, as written, there are at most 257 windows), the call
      requests every window once, in order, and returns the merge of all the
      samples accumulated in window order, with the last window's reply. */
  lemma GetDataSucceeds<V>(reading: Reading, ping: PingStatus, start: int, stop: int,
      fetch: Window -> Response<V>, parse: string -> int, replies: seq<Reply<V>>)
    requires ping.customer.Present?
    requires start < stop
    requires reading == AsWritten ==> |Windows(start, stop, MaxSpan)| <= SmallIntMax + 1
    requires |replies| == |Windows(start, stop, MaxSpan)|
    requires forall k :: 0 <= k < |replies| ==>
      Classify(reading, fetch(Windows(start, stop, MaxSpan)[k]), parse) == Success(replies[k])
    ensures var w := Windows(start, stop, MaxSpan);
      var r := GetData(reading, ping, start, stop, fetch, parse);
      var m := MergeSeries(Times(Collected(replies)), Values(Collected(replies)));
      r == Run(w, Fetched(m.times, m.values, fetch(w[|w| - 1])))
  {
    WalkSucceeds(reading, start, stop, fetch, parse, replies);
    var walk := Loop(reading, Starts(start, stop, MaxSpan), stop, fetch, Reader(reading, parse), 0, [], None);
    assert GetData(reading, ping, start, stop, fetch, parse) == Run(walk.requests, Finish(walk.samples, walk.last));
  }

  /** The window walk behind `GetDataSucceeds`: every window requested, no
      exception, every reply's samples collected, the last reply kept. */
  lemma WalkSucceeds<V>(reading: Reading, start: int, stop: int,
      fetch: Window -> Response<V>, parse: string -> int, replies: seq<Reply<V>>)
    requires start < stop
    requires reading == AsWritten ==> |Windows(start, stop, MaxSpan)| <= SmallIntMax + 1
    requires |replies| == |Windows(start, stop, MaxSpan)|
    requires forall k :: 0 <= k < |replies| ==>
      Classify(reading, fetch(Windows(start, stop, MaxSpan)[k]), parse) == Success(replies[k])
    ensures var w := Windows(start, stop, MaxSpan);
      |w| > 0 &&
      Loop(reading, Starts(start, stop, MaxSpan), stop, fetch, Reader(reading, parse), 0, [], None) ==
        Walk(w, None, Collected(replies), Some(fetch(w[|w| - 1])))
  {
    var starts := Starts(start, stop, MaxSpan);
    var w := Windows(start, stop, MaxSpan);
    var read := Reader(reading, parse);
    forall k | 0 <= k < |starts|
      ensures read(fetch(WindowAt(starts, stop, k))) == Success(replies[k])
    {
      assert w[k] == WindowAt(starts, stop, k);
    }
    PartitionPrefix(starts, stop, |starts|);
    assert Span(starts, stop, 0, |starts|) == w;
    LoopSucceeds(reading, starts, stop, fetch, read, 0, [], None, replies);
    assert replies[0..] == replies && [] + Collected(replies) == Collected(replies);
  }

  /** A window whose identifier has no data (its first entry's "Values" is
      null) is skipped under either reading: with a valid token, a non-empty
      span (as written, of at most 257 windows) and every window's reply
      classifying, the call returns the merge of the other windows' samples,
      exactly as if window `k` had not been there. */
  lemma NoDataWindowSkipped<V>(reading: Reading, ping: PingStatus, start: int, stop: int,
      fetch: Window -> Response<V>, parse: string -> int, replies: seq<Reply<V>>, k: int)
    requires ping.customer.Present?
    requires start < stop
    requires reading == AsWritten ==> |Windows(start, stop, MaxSpan)| <= SmallIntMax + 1
    requires |replies| == |Windows(start, stop, MaxSpan)|
    requires forall j :: 0 <= j < |replies| ==>
      Classify(reading, fetch(Windows(start, stop, MaxSpan)[j]), parse) == Success(replies[j])
    requires 0 <= k < |replies|
    requires var data := fetch(Windows(start, stop, MaxSpan)[k]);
      data.values.Present? && |data.values.value| > 0 && data.values.value[0].values.Null?
    ensures var w := Windows(start, stop, MaxSpan);
      var others := Collected(replies[..k] + replies[k + 1..]);
      var m := MergeSeries(Times(others), Values(others));
      GetData(reading, ping, start, stop, fetch, parse) == Run(w, Fetched(m.times, m.values, fetch(w[|w| - 1])))
  {
    var w := Windows(start, stop, MaxSpan);
    assert Classify(reading, fetch(w[k]), parse) == Success(replies[k]);
    assert replies[k] == NoData;
    EmptyReplySkipped(replies, k);
    GetDataSucceeds(reading, ping, start, stop, fetch, parse, replies);
  }

  /** When window `k` is the first whose reply fails to classify (as written,
      the last of more than 257 windows is not reached), the call requests
      windows 0 to `k` and raises that failure. */
  lemma GetDataStopsAtFirstFailure<V>(reading: Reading, ping: PingStatus, start: int, stop: int,
      fetch: Window -> Response<V>, parse: string -> int, k: int)
    requires ping.customer.Present?
    requires 0 <= k < |Windows(start, stop, MaxSpan)|
    requires reading == AsWritten && k == |Windows(start, stop, MaxSpan)| - 1 ==> k <= SmallIntMax
    requires forall j :: 0 <= j < k ==> Classify(reading, fetch(Windows(start, stop, MaxSpan)[j]), parse).Success?
    requires Classify(reading, fetch(Windows(start, stop, MaxSpan)[k]), parse).Failure?
    ensures var w := Windows(start, stop, MaxSpan);
      GetData(reading, ping, start, stop, fetch, parse) ==
        Run(w[..k + 1], Raised(Classify(reading, fetch(w[k]), parse).error))
  {
    var starts := Starts(start, stop, MaxSpan);
    var w := Windows(start, stop, MaxSpan);
    assert forall j :: 0 <= j < |starts| ==> w[j] == WindowAt(starts, stop, j);
    PartitionPrefix(starts, stop, k + 1);
    LoopStopsAtFailure(reading, starts, stop, fetch, Reader(reading, parse), 0, [], None, k);
  }

  /** As written, a span longer than 257 request windows loses its last
      window: once the others are read, the call raises IndexError instead
      of requesting it. */
  lemma LastWindowLostAsWritten<V>(ping: PingStatus, start: int, stop: int,
      fetch: Window -> Response<V>, parse: string -> int)
    requires ping.customer.Present?
    requires stop - start > (SmallIntMax + 1) * MaxSpan
    requires forall j :: 0 <= j < |Windows(start, stop, MaxSpan)| - 1 ==>
      Classify(AsWritten, fetch(Windows(start, stop, MaxSpan)[j]), parse).Success?
    ensures var w := Windows(start, stop, MaxSpan);
      |w| > SmallIntMax + 1 &&
      GetData(AsWritten, ping, start, stop, fetch, parse) == Run(w[..|w| - 1], Raised(NoNextStart))
  {
    ManyWindows(start, stop, SmallIntMax + 1);
    WalkLosesLastWindow(start, stop, fetch, parse);
    var walk := Loop(AsWritten, Starts(start, stop, MaxSpan), stop, fetch, Reader(AsWritten, parse), 0, [], None);
    assert GetData(AsWritten, ping, start, stop, fetch, parse) == Run(walk.requests, Raised(NoNextStart));
  }

  /** The window walk behind `LastWindowLostAsWritten`. */
  lemma WalkLosesLastWindow<V>(start: int, stop: int, fetch: Window -> Response<V>, parse: string -> int)
    requires |Windows(start, stop, MaxSpan)| > SmallIntMax + 1
    requires forall j :: 0 <= j < |Windows(start, stop, MaxSpan)| - 1 ==>
      Classify(AsWritten, fetch(Windows(start, stop, MaxSpan)[j]), parse).Success?
    ensures var w := Windows(start, stop, MaxSpan);
      var walk := Loop(AsWritten, Starts(start, stop, MaxSpan), stop, fetch, Reader(AsWritten, parse), 0, [], None);
      walk.requests == w[..|w| - 1] && walk.error == Some(NoNextStart)
  {
    var starts := Starts(start, stop, MaxSpan);
    var w := Windows(start, stop, MaxSpan);
    var read := Reader(AsWritten, parse);
    forall j | 0 <= j < |starts| - 1
      ensures read(fetch(WindowAt(starts, stop, j))).Success?
    {
      assert w[j] == WindowAt(starts, stop, j);
    }
    PartitionPrefix(starts, stop, |starts| - 1);
    LoopLosesLastWindow(starts, stop, fetch, read, 0, [], None);
  }

  /** A span longer than `n` request windows is cut into more than `n`. */
  lemma ManyWindows(start: int, stop: int, n: nat)
    requires stop - start > n * MaxSpan
    ensures |Windows(start, stop, MaxSpan)| > n
  {
    var m := |Starts(start, stop, MaxSpan)|;
    if m <= n {
      MultipleMonotone(m, n, MaxSpan);
      assert false;
    }
  }

  /** As written, an identifier the service does not know (a null "Values" in
      the first reply) makes the call raise TypeError after one request. */
  lemma UnknownIdentifierRaisesAsWritten<V>(ping: PingStatus, start: int, stop: int,
      fetch: Window -> Response<V>, parse: string -> int)
    requires ping.customer.Present?
    requires start < stop
    requires fetch(Windows(start, stop, MaxSpan)[0]).values.Null?
    ensures GetData(AsWritten, ping, start, stop, fetch, parse) ==
      Run([Windows(start, stop, MaxSpan)[0]], Raised(LenOfNone))
  {
    var w := Windows(start, stop, MaxSpan);
    GetDataStopsAtFirstFailure(AsWritten, ping, start, stop, fetch, parse, 0);
    assert w[..1] == [w[0]];
  }

  /** Intended, an identifier the service does not know in any window is
      skipped window by window: every window is requested and the result is
      empty, with no exception. */
  lemma UnknownIdentifierSkipped<V>(ping: PingStatus, start: int, stop: int,
      fetch: Window -> Response<V>, parse: string -> int)
    requires ping.customer.Present?
    requires start < stop
    requires forall k :: 0 <= k < |Windows(start, stop, MaxSpan)| ==> fetch(Windows(start, stop, MaxSpan)[k]).values.Null?
    ensures var w := Windows(start, stop, MaxSpan);
      GetData(Intended, ping, start, stop, fetch, parse) == Run(w, Fetched([], [], fetch(w[|w| - 1])))
  {
    var replies := NullReplies(start, stop, fetch, parse);
    GetDataSucceeds(Intended, ping, start, stop, fetch, parse, replies);
    NothingMerged(Collected(replies));
  }

  /** Intended, windows whose replies all hold a null "Values" each read as an
      unknown identifier, and together carry no samples. */
  lemma NullReplies<V>(start: int, stop: int, fetch: Window -> Response<V>, parse: string -> int)
      returns (replies: seq<Reply<V>>)
    requires forall k :: 0 <= k < |Windows(start, stop, MaxSpan)| ==> fetch(Windows(start, stop, MaxSpan)[k]).values.Null?
    ensures |replies| == |Windows(start, stop, MaxSpan)|
    ensures forall k :: 0 <= k < |replies| ==>
      Classify(Intended, fetch(Windows(start, stop, MaxSpan)[k]), parse) == Success(replies[k])
    ensures Collected(replies) == []
  {
    var w := Windows(start, stop, MaxSpan);
    replies := seq(|w|, k => NotFound);
    forall k | 0 <= k < |replies|
      ensures Classify(Intended, fetch(w[k]), parse) == Success(replies[k])
    {
      NullIsNotFound(fetch(w[k]), parse);
    }
    CollectedOfEmpty(replies);
  }

  /** Intended, a null "Values" reads as an unknown identifier. */
  lemma NullIsNotFound<V>(data: Response<V>, parse: string -> int)
    requires data.values.Null?
    ensures Classify(Intended, data, parse) == Success(NotFound)
  {
  }

  /** No samples merge to no times and no values. */
  lemma NothingMerged<V>(samples: seq<Sample<V>>)
    requires samples == []
    ensures MergeSeries(Times(samples), Values(samples)) == Merged([], [])
  {
    assert Times(samples) == [] && Elems([]) == {};
  }
}

=== FILE: merge.dfy ===
/** The final merge of `get_data`: `np.unique(t, return_index=True)` sorts the
    distinct timestamps ascending and gives, for each, the index of its first
    occurrence in `t`; `v[idx]` then picks the value seen first for each
    timestamp. */
module Merge {

  /** Every element is smaller than every later one: sorted and duplicate-free. */
  ghost predicate StrictlyIncreasing(s: seq<int>)
  {
    forall i, j :: 0 <= i < j < |s| ==> s[i] < s[j]
  }

  /** The set of elements of a sequence. */
  function Elems(s: seq<int>): set<int>
  {
    set x | x in s
  }

  /** Insert one timestamp into a sorted duplicate-free sequence. */
  function Insert(u: seq<int>, x: int): (r: seq<int>)
    requires StrictlyIncreasing(u)
    ensures StrictlyIncreasing(r)
    ensures Elems(r) == Elems(u) + {x}
  {
    if u == [] then
      ElemsCons(x, u);
      [x]
    else
      ElemsCons(u[0], u[1..]);
      if x < u[0] then
        ElemsCons(x, u);
        BelowAll(x, u);
        [x] + u
      else if x == u[0] then u
      else
        var rest := Insert(u[1..], x);
        ElemsCons(u[0], rest);
        BelowAll(u[0], rest);
        [u[0]] + rest
  }

  /** The elements of `[a] + s` are `a` and those of `s`. */
  lemma ElemsCons(a: int, s: seq<int>)
    ensures Elems([a] + s) == {a} + Elems(s)
  {
    assert forall y :: y in [a] + s <==> y == a || y in s;
  }

  /** Putting a value below all its elements in front of a sorted
      duplicate-free sequence keeps it sorted and duplicate-free. */
  lemma BelowAll(a: int, s: seq<int>)
    requires StrictlyIncreasing(s)
    requires forall y :: y in Elems(s) ==> a < y
    ensures StrictlyIncreasing([a] + s)
  {
    var r := [a] + s;
    forall i, j | 0 <= i < j < |r|
      ensures r[i] < r[j]
    {
      assert r[j] == s[j - 1] && s[j - 1] in Elems(s);
      if i > 0 {
        assert r[i] == s[i - 1];
      }
    }
  }

  /** The distinct timestamps of `t`, ascending. */
  function SortedKeys(t: seq<int>): (u: seq<int>)
    ensures StrictlyIncreasing(u)
    ensures Elems(u) == Elems(t)
  {
    if t == [] then []
    else
      assert t == t[..|t| - 1] + [t[|t| - 1]];
      Insert(SortedKeys(t[..|t| - 1]), t[|t| - 1])
  }

  /** The index of the first occurrence of `x` in `t`. */
  function FirstIndex(t: seq<int>, x: int): (i: nat)
    requires x in t
    ensures i < |t| && t[i] == x
    ensures forall j :: 0 <= j < i ==> t[j] != x
  {
    if t[0] == x then 0 else 1 + FirstIndex(t[1..], x)
  }

  /** The two results of `np.unique(t, return_index=True)`. */
  datatype Unique = Unique(keys: seq<int>, index: seq<nat>)

  /** `np.unique(t, return_index=True)`: the distinct timestamps ascending, and
      for each the index of its first occurrence. */
  function UniqueIndex(t: seq<int>): (r: Unique)
    ensures StrictlyIncreasing(r.keys)
    ensures Elems(r.keys) == Elems(t)
    ensures |r.index| == |r.keys|
    ensures forall k :: 0 <= k < |r.keys| ==> r.index[k] < |t| && t[r.index[k]] == r.keys[k]
    ensures forall k, j :: 0 <= k < |r.keys| && 0 <= j < r.index[k] ==> t[j] != r.keys[k]
  {
    var u := SortedKeys(t);
    assert forall k :: 0 <= k < |u| ==> u[k] in Elems(t);
    Unique(u, seq(|u|, k requires 0 <= k < |u| => FirstIndex(t, u[k])))
  }

  /** Reference definition of first-occurrence-wins: the value paired with the
      first occurrence of timestamp `x`, found by scanning from the front. */
  function FirstValue<V>(t: seq<int>, v: seq<V>, x: int): V
    requires |t| == |v|
    requires x in t
  {
    if t[0] == x then v[0] else FirstValue(t[1..], v[1..], x)
  }

  /** The value at the first index of `x` is the first value of `x`. */
  lemma {:induction false} FirstIndexValue<V>(t: seq<int>, v: seq<V>, x: int)
    requires |t| == |v|
    requires x in t
    ensures v[FirstIndex(t, x)] == FirstValue(t, v, x)
  {
    if t[0] != x {
      FirstIndexValue(t[1..], v[1..], x);
    }
  }

  /** The merged time series. */
  datatype Merged<V> = Merged(times: seq<int>, values: seq<V>)

  /** Lines 142-143: `(t, idx) = np.unique(t, return_index=True); v = v[idx]`.
      The result is sorted and duplicate-free, holds every accumulated
      timestamp and no other, and pairs each with the value of its first
      occurrence. */
  function MergeSeries<V>(t: seq<int>, v: seq<V>): (m: Merged<V>)
    requires |t| == |v|
    ensures |m.times| == |m.values|
    ensures StrictlyIncreasing(m.times)
    ensures Elems(m.times) == Elems(t)
    ensures |m.times| == |Elems(t)|
    ensures forall k :: 0 <= k < |m.times| ==> m.times[k] in t && m.values[k] == FirstValue(t, v, m.times[k])
  {
    var u := UniqueIndex(t);
    var values := seq(|u.index|, k requires 0 <= k < |u.index| => v[u.index[k]]);
    forall k | 0 <= k < |u.keys|
      ensures u.keys[k] in t && values[k] == FirstValue(t, v, u.keys[k])
    {
      assert u.keys[k] in t;
      assert u.index[k] == FirstIndex(t, u.keys[k]) by {
        FirstIndexUnique(t, u.keys[k], u.index[k]);
      }
      FirstIndexValue(t, v, u.keys[k]);
    }
    DistinctCount(u.keys);
    Merged(u.keys, values)
  }

  /** An index holding `x` with no earlier `x` is the first index of `x`. */
  lemma FirstIndexUnique(t: seq<int>, x: int, i: int)
    requires 0 <= i < |t| && t[i] == x
    requires forall j :: 0 <= j < i ==> t[j] != x
    ensures FirstIndex(t, x) == i
  {
  }

  /** A duplicate-free sequence has as many distinct elements as it is long. */
  lemma {:induction false} DistinctCount(s: seq<int>)
    requires StrictlyIncreasing(s)
    ensures |Elems(s)| == |s|
  {
    if s != [] {
      assert s == [s[0]] + s[1..];
      assert Elems(s) == {s[0]} + Elems(s[1..]);
      assert s[0] !in Elems(s[1..]);
      DistinctCount(s[1..]);
    }
  }

  /** A sorted duplicate-free sequence is determined by its set of elements. */
  lemma {:induction false} SortedUnique(a: seq<int>, b: seq<int>)
    requires StrictlyIncreasing(a) && StrictlyIncreasing(b)
    requires Elems(a) == Elems(b)
    ensures a == b
  {
    DistinctCount(a);
    DistinctCount(b);
    if a != [] {
      assert a[0] in Elems(b) && b[0] in Elems(a);
      assert a[0] == b[0];
      assert a == [a[0]] + a[1..] && b == [b[0]] + b[1..];
      assert a[0] !in Elems(a[1..]) && b[0] !in Elems(b[1..]);
      assert Elems(a[1..]) == Elems(a) - {a[0]};
      assert Elems(b[1..]) == Elems(b) - {b[0]};
      SortedUnique(a[1..], b[1..]);
    }
  }

  /** In a duplicate-free sequence each timestamp's first value is its own. */
  lemma {:induction false} FirstValueOfDistinct<V>(t: seq<int>, v: seq<V>, k: int)
    requires |t| == |v|
    requires StrictlyIncreasing(t)
    requires 0 <= k < |t|
    ensures FirstValue(t, v, t[k]) == v[k]
  {
    if k > 0 {
      assert t[0] < t[k];
      FirstValueOfDistinct(t[1..], v[1..], k - 1);
    }
  }

  /** Merging a series that is already sorted and duplicate-free returns it
      unchanged, as for windows whose samples neither overlap nor go back. */
  lemma MergeOfIncreasing<V>(t: seq<int>, v: seq<V>)
    requires |t| == |v|
    requires StrictlyIncreasing(t)
    ensures MergeSeries(t, v) == Merged(t, v)
  {
    var m := MergeSeries(t, v);
    SortedUnique(m.times, t);
    forall k | 0 <= k < |t|
      ensures m.values[k] == v[k]
    {
      FirstValueOfDistinct(t, v, k);
    }
  }

  /** Merging is idempotent. */
  lemma MergeIdempotent<V>(t: seq<int>, v: seq<V>)
    requires |t| == |v|
    ensures var m := MergeSeries(t, v); MergeSeries(m.times, m.values) == m
  {
    var m := MergeSeries(t, v);
    MergeOfIncreasing(m.times, m.values);
  }

  /** Appending samples after a timestamp's first occurrence leaves its first
      value alone. */
  lemma {:induction false} FirstValueAppend<V>(t1: seq<int>, v1: seq<V>, t2: seq<int>, v2: seq<V>, x: int)
    requires |t1| == |v1| && |t2| == |v2|
    requires x in t1
    ensures FirstValue(t1 + t2, v1 + v2, x) == FirstValue(t1, v1, x)
  {
    if t1[0] != x {
      assert (t1 + t2)[1..] == t1[1..] + t2;
      assert (v1 + v2)[1..] == v1[1..] + v2;
      FirstValueAppend(t1[1..], v1[1..], t2, v2, x);
    }
  }

  /** First occurrence wins: samples whose timestamps were all seen before
      change nothing when appended, whatever their values. */
  lemma MergeIgnoresLaterDuplicates<V>(t1: seq<int>, v1: seq<V>, t2: seq<int>, v2: seq<V>)
    requires |t1| == |v1| && |t2| == |v2|
    requires Elems(t2) <= Elems(t1)
    ensures MergeSeries(t1 + t2, v1 + v2) == MergeSeries(t1, v1)
  {
    var m := MergeSeries(t1 + t2, v1 + v2);
    var m1 := MergeSeries(t1, v1);
    ElemsAppend(t1, t2);
    SortedUnique(m.times, m1.times);
    forall k | 0 <= k < |m.times|
      ensures m.values[k] == m1.values[k]
    {
      assert m.times[k] in Elems(t1);
      FirstValueAppend(t1, v1, t2, v2, m.times[k]);
    }
    assert m.values == m1.values;
  }

  /** The elements of `a + b` are those of `a` and those of `b`. */
  lemma ElemsAppend(a: seq<int>, b: seq<int>)
    ensures Elems(a + b) == Elems(a) + Elems(b)
  {
    assert forall y :: y in a + b <==> y in a || y in b;
  }
}

=== FILE: replies.dfy ===
/** Reading the reply to one getData request. The decoded body holds a list of
    per-identifier entries under "Values"; `get_data` looks only at the first
    entry, whose own "Values" list holds the samples. Each sample has a
    timestamp string with a trailing UTC offset and a value. */
module Replies {
  import opened Wrappers
  import opened Runtime

  /** One sample as the service sends it: timestamp text and value. */
  datatype RawSample<V> = RawSample(timestamp: string, value: V)

  /** One per-identifier entry of the reply. */
  datatype Entry<V> = Entry(values: Field<seq<RawSample<V>>>)

  /** The decoded body of one getData reply. */
  datatype Response<V> = Response(values: Field<seq<Entry<V>>>)

  /** A decoded sample: integer time in seconds and value. */
  datatype Sample<V> = Sample(time: int, value: V)

  /** What one window's reply amounts to: the identifier is unknown, it has no
      data in the window, or it has these samples. */
  datatype Reply<V> = NotFound | NoData | Samples(samples: seq<Sample<V>>)

  /** Length of the UTC offset suffix "+hh:mm" that ends every timestamp. */
  const OffsetLength: int := 6

  /** Python's `ts[:-6]`: the text without its last six characters, or the
      empty text when it is shorter. The offset is dropped, not applied. */
  function StripOffset(ts: string): (r: string)
    ensures |ts| >= OffsetLength ==> |r| == |ts| - OffsetLength
    ensures |ts| < OffsetLength ==> r == []
    ensures r <= ts
  {
    if |ts| >= OffsetLength then ts[..|ts| - OffsetLength] else []
  }

  /** Two timestamps that differ only in their offset suffix are the same once
      stripped: no time-zone adjustment takes place. */
  lemma OffsetIgnored(local: string, offset1: string, offset2: string)
    requires |offset1| == OffsetLength && |offset2| == OffsetLength
    ensures StripOffset(local + offset1) == StripOffset(local + offset2) == local
  {
    assert (local + offset1)[..|local|] == local;
    assert (local + offset2)[..|local|] == local;
  }

  /** The samples of one entry, each timestamp stripped of its offset and read
      by `parse` (the datetime64 constructor), each value kept. */
  function Decode<V>(raw: seq<RawSample<V>>, parse: string -> int): (r: seq<Sample<V>>)
    ensures |r| == |raw|
    ensures forall n :: 0 <= n < |r| ==>
      r[n].time == parse(StripOffset(raw[n].timestamp)) && r[n].value == raw[n].value
  {
    seq(|raw|, n requires 0 <= n < |raw| => Sample(parse(StripOffset(raw[n].timestamp)), raw[n].value))
  }

  /** Decoding two runs of raw samples is decoding each and concatenating:
      samples keep their order across entries appended one after another. */
  lemma DecodeAppend<V>(a: seq<RawSample<V>>, b: seq<RawSample<V>>, parse: string -> int)
    ensures Decode(a + b, parse) == Decode(a, parse) + Decode(b, parse)
  {
    var r, ra, rb := Decode(a + b, parse), Decode(a, parse), Decode(b, parse);
    forall n | 0 <= n < |r|
      ensures r[n] == (ra + rb)[n]
    {
      if n < |a| {
        assert (a + b)[n] == a[n];
      } else {
        assert (a + b)[n] == b[n - |a|];
      }
    }
  }

  /** Raw samples that differ only in the offset suffix of their timestamps
      decode to the same samples: the time is read from the local part alone. */
  lemma DecodeIgnoresOffsets<V>(raw1: seq<RawSample<V>>, raw2: seq<RawSample<V>>,
      locals: seq<string>, offsets1: seq<string>, offsets2: seq<string>, parse: string -> int)
    requires |raw1| == |raw2| == |locals| == |offsets1| == |offsets2|
    requires forall n :: 0 <= n < |raw1| ==>
      |offsets1[n]| == OffsetLength && raw1[n].timestamp == locals[n] + offsets1[n]
    requires forall n :: 0 <= n < |raw2| ==>
      |offsets2[n]| == OffsetLength && raw2[n].timestamp == locals[n] + offsets2[n]
    requires forall n :: 0 <= n < |raw1| ==> raw1[n].value == raw2[n].value
    ensures Decode(raw1, parse) == Decode(raw2, parse)
  {
    forall n | 0 <= n < |raw1|
      ensures StripOffset(raw1[n].timestamp) == StripOffset(raw2[n].timestamp)
    {
      OffsetIgnored(locals[n], offsets1[n], offsets2[n]);
    }
  }

  /** Lines 112-136 of the per-window step: the diagnostic `len` of "Values",
      then the null checks, then decoding of the first entry. As written, the
      `len` raises on a null "Values", so an unknown identifier is never
      skipped; the intended reading skips it as the null check meant to. */
  function Classify<V>(reading: Reading, resp: Response<V>, parse: string -> int): (r: Result<Reply<V>, Error>)
    ensures r.Failure? <==>
      resp.values.Absent? || (resp.values.Null? && reading == AsWritten) ||
      (resp.values.Present? && (|resp.values.value| == 0 || resp.values.value[0].values.Absent?))
    ensures resp.values.Absent? ==> r == Failure(KeyMissing("Values"))
    ensures resp.values.Null? && reading == AsWritten ==> r == Failure(LenOfNone)
    ensures resp.values.Present? && |resp.values.value| == 0 ==> r == Failure(NoFirstEntry)
    ensures resp.values.Present? && |resp.values.value| > 0 && resp.values.value[0].values.Absent? ==>
      r == Failure(KeyMissing("Values"))
    ensures r.Success? && r.value.NotFound? <==> resp.values.Null? && reading.Intended?
    ensures r.Success? && r.value.NoData? <==>
      resp.values.Present? && |resp.values.value| > 0 && resp.values.value[0].values.Null?
    ensures r.Success? && r.value.Samples? <==>
      resp.values.Present? && |resp.values.value| > 0 && resp.values.value[0].values.Present?
    ensures r.Success? && r.value.Samples? ==>
      r.value.samples == Decode(resp.values.value[0].values.value, parse)
  {
    match resp.values
    case Absent => Failure(KeyMissing("Values"))
    case Null => if reading == AsWritten then Failure(LenOfNone) else Success(NotFound)
    case Present(entries) =>
      if |entries| == 0 then Failure(NoFirstEntry)
      else
        match entries[0].values
        case Absent => Failure(KeyMissing("Values"))
        case Null => Success(NoData)
        case Present(raw) => Success(Samples(Decode(raw, parse)))
  }

  /** The samples a window adds to the accumulated arrays. */
  function Contribution<V>(reply: Reply<V>): seq<Sample<V>>
  {
    if reply.Samples? then reply.samples else []
  }

  /** The accumulated samples of the windows' replies, in window order, as the
      repeated `np.append` builds them. */
  function Collected<V>(replies: seq<Reply<V>>): seq<Sample<V>>
  {
    if replies == [] then [] else Contribution(replies[0]) + Collected(replies[1..])
  }

  /** The two readings classify every reply alike except one whose "Values" is
      null: as written that raises TypeError from `len`, intended it is an
      unknown identifier whose window is skipped. */
  lemma ReadingsDifferOnlyOnNull<V>(resp: Response<V>, parse: string -> int)
    ensures !resp.values.Null? ==> Classify(AsWritten, resp, parse) == Classify(Intended, resp, parse)
    ensures resp.values.Null? ==> Classify(AsWritten, resp, parse) == Failure(LenOfNone)
    ensures resp.values.Null? ==> Classify(Intended, resp, parse) == Success(NotFound)
  {
  }

  /** Only the first per-identifier entry is read: replies that agree on it
      classify alike, whatever entries follow. */
  lemma OnlyFirstEntryRead<V>(reading: Reading, e: Entry<V>, rest1: seq<Entry<V>>, rest2: seq<Entry<V>>, parse: string -> int)
    ensures Classify(reading, Response(Present([e] + rest1)), parse) == Classify(reading, Response(Present([e] + rest2)), parse)
  {
  }

  /** Accumulating the replies of two runs of windows is accumulating each run
      and concatenating, in window order. */
  lemma {:induction false} CollectedAppend<V>(a: seq<Reply<V>>, b: seq<Reply<V>>)
    ensures Collected(a + b) == Collected(a) + Collected(b)
  {
    if a == [] {
      assert a + b == b;
    } else {
      assert (a + b)[0] == a[0];
      assert (a + b)[1..] == a[1..] + b;
      CollectedAppend(a[1..], b);
    }
  }

  /** Accumulating from window `i` on is window `i`'s samples, then the rest. */
  lemma CollectedFrom<V>(replies: seq<Reply<V>>, i: int)
    requires 0 <= i < |replies|
    ensures Collected(replies[i..]) == Contribution(replies[i]) + Collected(replies[i + 1..])
  {
    assert replies[i..][0] == replies[i];
    assert replies[i..][1..] == replies[i + 1..];
  }

  /** A window whose reply carries no samples (no data, or an unknown
      identifier) adds nothing: dropping it leaves the accumulation unchanged,
      and the other windows still contribute. */
  lemma EmptyReplySkipped<V>(replies: seq<Reply<V>>, k: int)
    requires 0 <= k < |replies|
    requires !replies[k].Samples?
    ensures Collected(replies) == Collected(replies[..k] + replies[k + 1..])
  {
    var before, skipped, after := replies[..k], [replies[k]], replies[k + 1..];
    assert replies == (before + skipped) + after;
    CollectedAppend(before + skipped, after);
    CollectedAppend(before, skipped);
    assert Collected(skipped) == [] by {
      assert skipped[1..] == [];
    }
    assert Collected(before) + [] == Collected(before);
    CollectedAppend(before, after);
  }

  /** A sample is accumulated exactly when some window's reply carries it. */
  lemma {:induction false} CollectedMembership<V>(replies: seq<Reply<V>>, x: Sample<V>)
    ensures x in Collected(replies) <==> exists k :: 0 <= k < |replies| && x in Contribution(replies[k])
  {
    if replies != [] {
      CollectedMembership(replies[1..], x);
      if x in Collected(replies[1..]) {
        var k :| 0 <= k < |replies[1..]| && x in Contribution(replies[1..][k]);
        assert x in Contribution(replies[k + 1]);
      }
      if exists k :: 0 <= k < |replies| && x in Contribution(replies[k]) {
        var k :| 0 <= k < |replies| && x in Contribution(replies[k]);
        if k > 0 {
          assert replies[1..][k - 1] == replies[k];
        }
      }
    }
  }

  /** Windows none of whose replies carry samples accumulate nothing. */
  lemma {:induction false} CollectedOfEmpty<V>(replies: seq<Reply<V>>)
    requires forall k :: 0 <= k < |replies| ==> !replies[k].Samples?
    ensures Collected(replies) == []
  {
    if replies != [] {
      CollectedOfEmpty(replies[1..]);
    }
  }
}

=== FILE: runtime.dfy ===
/** The bits of Python's run-time behaviour that `get_data` depends on: the
    exceptions it can raise, the three states a JSON member can be in once the
    body is decoded, and the identity test `is` on integers. */
module Runtime {

  /** The exceptions `get_data` can let escape. */
  datatype Error =
    | KeyMissing(key: string)  // KeyError: a decoded JSON object lacks the member
    | LenOfNone                // TypeError: `len(data['Values'])` with Values null
    | NoFirstEntry             // IndexError: `data["Values"][0]` on an empty list
    | NoNextStart              // IndexError: `t_start[i+1]` past the last start
    | DataUnbound              // UnboundLocalError: `data` read at return, never assigned

  /** A member of a decoded JSON object: missing, present but null, or present. */
  datatype Field<+T> = Absent | Null | Present(value: T)

  /** Which reading of the source a definition follows: the code as written, or
      the behaviour its statements evidently intend (the `continue` after the
      null check skips the window, whatever its comment says). The two differ
      only at the identity test of the window loop and at the diagnostic `len`
      that precedes the null check. */
  datatype Reading = AsWritten | Intended

  /** CPython keeps one shared object for every int in [-5, 256]; integers
      outside that range computed separately are distinct objects. */
  const SmallIntMin: int := -5
  const SmallIntMax: int := 256

  /** `a is b` for two separately computed ints under the given reading: object
      identity as CPython implements it, or the value equality it stands for. */
  predicate SameInt(reading: Reading, a: int, b: int)
  {
    a == b && (reading == Intended || SmallIntMin <= a <= SmallIntMax)
  }
}

=== FILE: windows.dfy ===
/** Splitting a requested time span into request windows. The remote service
    answers at most 365 days per request, so `get_data` walks the span in
    windows that start every 365 days and stops the last one at the requested
    end. Timestamps are integer seconds. */
module Windowing {
  import opened Wrappers
  import opened Runtime

  /** The largest span one request may cover: 365 days, in seconds. */
  const MaxSpan: int := 365 * 24 * 60 * 60

  /** One request window, from `start` (inclusive) to `end` (exclusive). */
  datatype Window = Window(start: int, end: int)

  /** The window starts, as `np.arange(start, stop, step)` produces them:
      `start + k*step` for every k that keeps the value below `stop`, so the
      count is the ceiling of `(stop - start) / step`. */
  function Starts(start: int, stop: int, step: int): (r: seq<int>)
    requires step > 0
    ensures forall k :: 0 <= k < |r| ==> r[k] == start + k * step
    ensures forall k :: 0 <= k < |r| ==> r[k] < stop
    ensures start < stop ==> (|r| - 1) * step < stop - start <= |r| * step
    ensures start >= stop ==> r == []
    decreases stop - start
  {
    if start >= stop then []
    else
      var rest := Starts(start + step, stop, step);
      var r := [start] + rest;
      forall k | 0 <= k < |r|
        ensures r[k] == start + k * step
      {
        if k > 0 {
          assert r[k] == rest[k - 1];
          NextMultiple(k - 1, step);
        }
      }
      var n := |rest|;
      assert (|r| - 1) * step < stop - start <= |r| * step by {
        NextMultiple(n, step);
        if n > 0 {
          NextMultiple(n - 1, step);
        }
      }
      r
  }

  /** One more step adds `step` to a multiple of it. */
  lemma NextMultiple(k: int, step: int)
    ensures (k + 1) * step == k * step + step
  {
  }

  /** Multiplying by a positive step keeps the order of the factors. */
  lemma MultipleMonotone(a: int, b: int, step: int)
    requires step > 0
    requires a <= b
    ensures a * step <= b * step
  {
  }

  /** Division by a positive step leaves a remainder in [0, step). */
  lemma Euclid(x: int, step: int)
    requires step > 0
    ensures x == (x / step) * step + x % step
    ensures 0 <= x % step < step
  {
  }

  /** `q` is the quotient of `x` by `step` when `x` lies in [q*step, (q+1)*step). */
  lemma QuotientOf(x: int, step: int, q: int)
    requires step > 0
    requires q * step <= x < q * step + step
    ensures x / step == q
  {
    var d := x / step;
    Euclid(x, step);
    if d < q {
      MultipleMonotone(d + 1, q, step);
      NextMultiple(d, step);
    } else if d > q {
      MultipleMonotone(q + 1, d, step);
      NextMultiple(q, step);
    }
  }

  /** The ceiling of `d / step` for a positive span `d`. */
  function CeilDiv(d: int, step: int): int
    requires step > 0
  {
    (d + step - 1) / step
  }

  /** The number of window starts is the ceiling of the span over the step. */
  lemma StartsCount(start: int, stop: int, step: int)
    requires step > 0
    requires start < stop
    ensures |Starts(start, stop, step)| == CeilDiv(stop - start, step)
  {
    var n := |Starts(start, stop, step)|;
    NextMultiple(n - 1, step);
    QuotientOf(stop - start + step - 1, step, n);
  }

  /** Where window `i` should end: at the next start, or at `stop` for the last
      window. */
  function NextBoundary(starts: seq<int>, stop: int, i: int): int
    requires 0 <= i < |starts|
  {
    if i == |starts| - 1 then stop else starts[i + 1]
  }

  /** The end the loop of `get_data` computes for window `i`: `stop` when the
      index tests as the last one, else the next start; `None` is the
      IndexError of reading one start past the end. Under the intended reading
      the end always exists; under either reading an end that exists is the
      right one; as written, the last of 258 or more windows has none, because
      its index is too large for `is` to hold. */
  function WindowEnd(reading: Reading, starts: seq<int>, stop: int, i: int): (r: Option<int>)
    requires 0 <= i < |starts|
    ensures r.Some? ==> r.value == NextBoundary(starts, stop, i)
    ensures reading == Intended ==> r.Some?
    ensures i < |starts| - 1 ==> r.Some?
    ensures reading == AsWritten && i == |starts| - 1 ==> (r.Some? <==> i <= SmallIntMax)
  {
    if SameInt(reading, i, |starts| - 1) then Some(stop)
    else if i + 1 < |starts| then Some(starts[i + 1])
    else None
  }

  /** Window `k` of the given starts: from start `k` to where it should end. */
  function WindowAt(starts: seq<int>, stop: int, k: int): Window
    requires 0 <= k < |starts|
  {
    Window(starts[k], NextBoundary(starts, stop, k))
  }

  /** Windows `i` to `j - 1` of the given starts, in order. */
  function Span(starts: seq<int>, stop: int, i: int, j: int): (r: seq<Window>)
    requires 0 <= i <= j <= |starts|
    ensures |r| == j - i
    ensures forall k :: 0 <= k < |r| ==> r[k] == WindowAt(starts, stop, i + k)
    decreases j - i
  {
    if i == j then [] else [WindowAt(starts, stop, i)] + Span(starts, stop, i + 1, j)
  }

  /** The windows cut out of the given starts, each ending where the next
      begins and the last ending at `stop`. */
  function Partition(starts: seq<int>, stop: int): (r: seq<Window>)
    ensures |r| == |starts|
    ensures forall i :: 0 <= i < |r| ==> r[i] == WindowAt(starts, stop, i)
  {
    Span(starts, stop, 0, |starts|)
  }

  /** A prefix of the partition is the span of its first windows. */
  lemma PartitionPrefix(starts: seq<int>, stop: int, j: int)
    requires 0 <= j <= |starts|
    ensures Partition(starts, stop)[..j] == Span(starts, stop, 0, j)
  {
  }

  /** The request windows `get_data` walks for the span [start, stop): one per
      start point, each ending where the next begins and the last at `stop`. */
  function Windows(start: int, stop: int, step: int): (r: seq<Window>)
    requires step > 0
  {
    Partition(Starts(start, stop, step), stop)
  }

  /** The shape of the windows: none for an empty span; otherwise the first
      starts at `start`, the last ends at `stop`, window `i` starts `i` steps
      in, each ends where the next begins, and none is empty or longer than
      a step. */
  lemma WindowsShape(start: int, stop: int, step: int)
    requires step > 0
    ensures var r := Windows(start, stop, step);
      (start >= stop ==> r == []) &&
      (start < stop ==> |r| > 0 && r[0].start == start && r[|r| - 1].end == stop) &&
      (forall i :: 0 <= i < |r| ==> r[i].start == start + i * step) &&
      (forall i :: 0 <= i < |r| - 1 ==> r[i].end == r[i + 1].start) &&
      (forall i :: 0 <= i < |r| ==> 0 < r[i].end - r[i].start <= step)
  {
    var starts := Starts(start, stop, step);
    var r := Windows(start, stop, step);
    forall i | 0 <= i < |r| - 1
      ensures r[i].end - r[i].start == step
    {
      assert starts[i + 1] - starts[i] == (i + 1) * step - i * step == step;
    }
    if start < stop {
      var n := |starts|;
      assert starts[n - 1] == start + (n - 1) * step;
    }
  }

  /** Window `i` contains `x`. */
  predicate Contains(w: Window, x: int)
  {
    w.start <= x < w.end
  }

  /** The windows cover [start, stop) exactly and without overlap: a time lies
      in some window if and only if it lies in the span, and then it lies in
      exactly one, the one numbered `(x - start) / step`. */
  lemma WindowsCover(start: int, stop: int, step: int, x: int)
    requires step > 0
    ensures var w := Windows(start, stop, step);
      (start <= x < stop <==> exists i :: 0 <= i < |w| && Contains(w[i], x))
    ensures var w := Windows(start, stop, step);
      forall i :: 0 <= i < |w| && Contains(w[i], x) ==> i == (x - start) / step
  {
    var w := Windows(start, stop, step);
    forall i | 0 <= i < |w| && Contains(w[i], x)
      ensures start <= x < stop && i == (x - start) / step
    {
      OnlyWindowOf(start, stop, step, x, i);
    }
    if start <= x < stop {
      WindowOfSpanTime(start, stop, step, x);
    }
  }

  /** A time in the span lies in the window numbered `(x - start) / step`. */
  lemma WindowOfSpanTime(start: int, stop: int, step: int, x: int)
    requires step > 0
    requires start <= x < stop
    ensures 0 <= (x - start) / step < |Windows(start, stop, step)|
    ensures Contains(Windows(start, stop, step)[(x - start) / step], x)
  {
    WindowsShape(start, stop, step);
    var w := Windows(start, stop, step);
    var n := |Starts(start, stop, step)|;
    assert |w| == n && stop - start <= n * step;
    var k := (x - start) / step;
    Euclid(x - start, step);
    assert 0 <= k by {
      if k < 0 {
        MultipleMonotone(k, -1, step);
      }
    }
    if k >= n {
      MultipleMonotone(n, k, step);
      assert false;
    }
    NextMultiple(k, step);
    assert w[k].start == start + k * step;
    if k < n - 1 {
      assert w[k].end == w[k + 1].start == start + (k + 1) * step;
    }
  }

  /** A time in window `i` lies in the span and has window number `i`. */
  lemma OnlyWindowOf(start: int, stop: int, step: int, x: int, i: int)
    requires step > 0
    requires 0 <= i < |Windows(start, stop, step)|
    requires Contains(Windows(start, stop, step)[i], x)
    ensures start <= x < stop
    ensures i == (x - start) / step
  {
    WindowsShape(start, stop, step);
    var w := Windows(start, stop, step);
    MultipleMonotone(0, i, step);
    WindowsAscend(start, stop, step, i, |w| - 1);
    QuotientOf(x - start, step, i);
  }

  /** Later windows start no earlier than earlier windows end. */
  lemma {:induction false} WindowsAscend(start: int, stop: int, step: int, i: int, j: int)
    requires step > 0
    requires 0 <= i <= j < |Windows(start, stop, step)|
    ensures Windows(start, stop, step)[i].start <= Windows(start, stop, step)[j].start
    ensures i < j ==> Windows(start, stop, step)[i].end <= Windows(start, stop, step)[j].start
    decreases j - i
  {
    WindowsShape(start, stop, step);
    var w := Windows(start, stop, step);
    if i < j {
      WindowsAscend(start, stop, step, i + 1, j);
      assert w[i].end == w[i + 1].start;
    }
  }
}

=== FILE: wrappers.dfy ===
/** Option and Result, the two failure-carrying wrappers the model uses in place
    of Python's `None` and raised exceptions. */
module Wrappers {

  datatype Option<+T> = None | Some(value: T)

  datatype Result<+R, +E> = Success(value: R) | Failure(error: E)
}
